=== FILE: README.md ===
# MAPE municipal indicators dashboard — data-shaping model

A Dafny model of the data-shaping rules of the MAPE municipal-indicator
dashboard (`src/streamlit_app.py`). The script reads an indicator table (one
row per municipality and year: `ano`, `id_municipio` and hundreds of indicator
columns) and a municipality-geometry table (`code_muni`, `name_muni`,
`geometry`), lets the user pick a primary indicator, a year and a second
indicator, and draws a choropleth map, a time-series chart and a scatterplot.
Before anything is charted it applies a handful of selection, filter and
aggregation rules; those rules are what this project models and proves.

Layout (one module per concern):

- `wrappers.dfy` — `Option` (a nullable cell) and `Result` (a run that may stop).
- `seqs.dfy` — `Filter`, the order-preserving boolean-mask selection every
  pandas filter in the script reduces to, with its concatenation,
  multiplicity and order lemmas.
- `frame.dfy` — the rows of both tables; a missing or null cell reads as `None`.
- `indicators.dfy` — indicator columns, default indicator, comparison options.
- `years.dfy` — valid years (sorted, distinct) and the default year.
- `choropleth.dfy` — the year filter, the left merge on
  `id_municipio == code_muni`, and the drop of rows without geometry.
- `timeseries.dfy` — per-year totals (nulls as zero), the `> 0` filter and
  the names it can read, and the highlighted last point.
- `scatter.dfy` — the rows with both indicators present and the
  "insufficient data" message.
- `labels.dfy` — `replace('_', ' ').capitalize()` for titles and axis labels.
- `dashboard.dfy` — one run of the script: tables and widget choices in,
  chart data (or the reason the run stopped) out, both as written and with
  the highlight read corrected.
- `scenarios.dfy` — small worked tables checked against the definitions.

Indicator values are exact `real`s. Geometry is an opaque well-known-text
token. Widgets are modelled by `Dashboard.SelectBox`: a select box shows one
of its options, the user's pick when it is one, otherwise its initial value.
The user's picks are parameters of `Dashboard.Run`.

The map keeps a municipality whose indicator cell is null: line 145 drops
only rows without a geometry (`Choropleth.MapRows`, `Scenarios.WorkedMap`).

The script stops early in seven places, and `Dashboard.Run` returns each
of the seven as a `Halt`, in the script's order; `Dashboard.RunCorrected`
returns the first six:
- no indicator column (line 96);
- no `ano` column: the year read at line 100 raises a KeyError;
- an indicator without values (lines 101-103);
- no `id_municipio` column: the merge at line 144 has no left key;
- an indicator table with its own `geometry` column: the merge at line 144
  renames both to `geometry_x`/`geometry_y`, so the `dropna` at line 145
  fails;
- an indicator name the `> 0` query at line 185 cannot read;
- an empty time series at the highlight read (lines 201-205).

`Dashboard.RunCorrected` is the run with the highlight read corrected.
`Dashboard.Run` is the script as written.

## Model

| member | source | states |
|---|---|---|
| `Indicators.IndicatorColumns` | src/streamlit_app.py:87-88 | a name is an indicator iff it is a column of the table and not one of `ano`, `id_municipio`, `geometry`; none of the three survives |
| `Indicators.IndicatorColumnsExact` | src/streamlit_app.py:87-88 | the indicator list keeps the table's column order (it distributes over concatenation) and keeps every occurrence of a non-structural column and none of a structural one |
| `Indicators.DefaultIndicator` | src/streamlit_app.py:96-98 | the initial primary indicator is one of the indicators; it is `total_desastres` exactly when that is offered, otherwise the first indicator |
| `Indicators.SecondaryOptions` | src/streamlit_app.py:108 | the comparison options never contain the primary; a name is an option iff it is an indicator other than the primary; the list is empty iff every indicator is the primary |
| `Indicators.SecondaryOptionsExact` | src/streamlit_app.py:108 | the comparison options keep the indicators' order and each non-primary occurrence, and drop every occurrence of the primary |
| `Dashboard.SecondIndicator` | src/streamlit_app.py:108-111 | the second indicator is an indicator; it equals the primary exactly when no other indicator exists; a pick of another indicator is shown; without a pick it is the first comparison option |
| `Years.SortedDistinct` | src/streamlit_app.py:100 | `sorted(unique(...))`: the result is strictly ascending and holds exactly the values of the input |
| `Years.ValidYears` | src/streamlit_app.py:100-101 | valid years are strictly ascending (so duplicate-free); a year is valid iff some row of that year has a non-null value of the indicator; the list is empty iff no row has a value |
| `Years.IncreasingUnique` | src/streamlit_app.py:100 | two strictly ascending lists with the same elements are equal, so the valid-year list is the unique ascending enumeration of its year set |
| `Years.ValidYearsCount` | src/streamlit_app.py:100 | the number of valid years is the number of distinct years that have a value |
| `Years.DefaultYear` | src/streamlit_app.py:105-106 | the initial year is a valid year; it is 2023 exactly when 2023 is valid, otherwise the last valid year |
| `Years.DefaultYearIsLatest` | src/streamlit_app.py:105 | on the ascending valid-year list, the fallback initial year is the largest valid year |
| `Frame.YearRows` | src/streamlit_app.py:143 | the year filter keeps exactly the rows whose `ano` is the selected year |
| `Choropleth.LeftMerge` | src/streamlit_app.py:144 | the left merge keeps every indicator row, emits only rows of the input, fills the code only with the row's own `id_municipio`, and has a geometry exactly for the pairs of a row and a municipality of the same code that has a geometry |
| `Choropleth.WithGeometry` | src/streamlit_app.py:145 | `dropna(subset=["geometry"])` keeps exactly the merged rows that have a geometry |
| `Choropleth.MapRows` | src/streamlit_app.py:142-146 | every map row is of the selected year, has a geometry and joins a municipality with `code_muni == id_municipio`; conversely every such join appears, whatever the indicator cells hold, so rows without a geometry match are dropped and rows with a null value are kept |
| `Choropleth.LeftMergeConcat` | src/streamlit_app.py:144 | the merge works row by row and keeps the order of the indicator rows |
| `Choropleth.MapRowsConcat` | src/streamlit_app.py:142-146 | the map rows keep the table's row order |
| `Choropleth.MatchesAtMostOne` | src/streamlit_app.py:144 | with unique `code_muni` an indicator row matches at most one municipality |
| `Choropleth.LeftMergeSameLength` | src/streamlit_app.py:144 | with unique `code_muni` the left merge has exactly one row per indicator row |
| `Choropleth.MapRowsAtMostOnePerRow` | src/streamlit_app.py:142-146 | with unique `code_muni` the map has at most one row per indicator row of the selected year |
| `TimeSeries.AllYears` | src/streamlit_app.py:184 | the grouping keys are exactly the years that occur in the table |
| `TimeSeries.NonZeroTotalHasData` | src/streamlit_app.py:184 | since nulls count as zero, a year with a non-zero total has a row with a non-null value |
| `TimeSeries.Accumulate` | src/streamlit_app.py:184 | the one-pass group accumulation has a running total for a year iff the year was already present or occurs in the rows |
| `TimeSeries.AccumulateTotals` | src/streamlit_app.py:184 | accumulating the rows adds to each year's running total exactly that year's total over the rows, nulls counting as zero |
| `TimeSeries.GroupTotals` | src/streamlit_app.py:184 | the grouped sums have a key for exactly the years that occur in the table, and each sum equals the independently computed year total |
| `TimeSeries.GroupSums` | src/streamlit_app.py:184 | the grouped table is ascending by year (one point per year) and has a point for a year iff that year occurs in the table, carrying the accumulated sum, which equals the year's total with nulls as zero |
| `TimeSeries.Series` | src/streamlit_app.py:184-185 | the chart's points are ascending by year, each is its year's total and is positive, every year with a positive total appears, and the series is empty iff no year has a positive total |
| `TimeSeries.SeriesYearsAreValid` | src/streamlit_app.py:184-185 | every year on the time-series chart is a valid year of the primary indicator |
| `TimeSeries.LastPoint` | src/streamlit_app.py:201-205 | `iloc[-1]` is defined only on a non-empty series; its point is in the series and, on an ascending series, has the largest year |
| `TimeSeries.ZeroIndicatorLeavesNoLastPoint` | src/streamlit_app.py:100-106 | a table whose indicator is zero in its only row has the valid year 2023 but an empty series, so the last-point read has no point |
| `TimeSeries.Highlight` | src/streamlit_app.py:201-205 | the highlighted point exists exactly when the series is non-empty, and is then a point of the series with the largest year |
| `Scatter.ScatterRows` | src/streamlit_app.py:224 | the scatter rows are exactly the rows of the selected year whose two indicators are both non-null |
| `Scatter.ScatterRowsExact` | src/streamlit_app.py:224 | the scatter rows keep table order and every copy of a qualifying row and nothing else, so their count is the count of qualifying rows |
| `Scatter.ScatterSection` | src/streamlit_app.py:224-227 | the "insufficient data" message is shown exactly when no row of the year has both indicators; otherwise the plot has at least one row and only qualifying rows |
| `Labels.Label` | src/streamlit_app.py:140 | the label has the name's length and no underscore; it has a space exactly where the name had a space or an underscore; every other character is the name's up to case; the first character is not lower-case and no later one is upper-case |
| `Labels.LabelIdempotent` | src/streamlit_app.py:140 | labelling a label gives the same label |
| `Dashboard.SelectBox` | src/streamlit_app.py:97-98 | a select box always shows one of its options; it shows the user's pick when that is an option, and its initial value when there is no pick |
| `Dashboard.PrimaryIndicator` | src/streamlit_app.py:96-98 | the primary select box shows an indicator: the user's pick when it is an indicator; without a pick `total_desastres` exactly when it is offered, otherwise the first indicator |
| `Dashboard.Charts` | src/streamlit_app.py:96-239 | once the primary indicator has values, every pick that is one of its widget's options is shown, and without a pick the primary is the first indicator when `total_desastres` is absent and the second indicator is the first comparison option; the selected year has data; the secondary is an indicator, equal to the primary only when no other exists; a row is on the map iff it is the join of a table row of the year with a municipality of its code that has a geometry; the series is exactly the years with a positive total, ascending, each with its total; the highlight exists iff the series is non-empty and is then its last point (`iloc[-1]`); the labels are the two indicators' labels; the scatter rows are exactly the year's rows with both indicators non-null, and "insufficient data" is shown iff there are none |
| `Dashboard.ChartsLatestYear` | src/streamlit_app.py:105-106 | without a year pick, when 2023 is not a valid year, the year shown is the latest valid year |
| `Dashboard.RunCorrected` | src/streamlit_app.py:87-227 | with the highlight corrected, a run stops for lack of indicators iff the table has no indicator column; a missing `ano` or `id_municipio` column stops it; it stops for the selected indicator only when no row has a value for it; a table with its own `geometry` column never reaches the charts; an indicator that stops the query is not a Python identifier; otherwise both key columns exist, the indicator is queryable and the view is the one `Dashboard.Charts` builds, so `Dashboard.Charts` and `Dashboard.ChartsLatestYear` apply |
| `Dashboard.Run` | src/streamlit_app.py:87-227 | the script as written reaches the end exactly when the corrected run does and its series is non-empty, and then produces the same chart data; an empty series stops it at the highlight read, which happens only when no year has a positive total; every other stop is the corrected run's |
| `Scenarios.WorkedYears` | src/streamlit_app.py:100 | on the three-row worked table the valid years are 2022 and 2023 |
| `Scenarios.WorkedTotals` | src/streamlit_app.py:184 | on the worked table the totals are 5 for 2022 and 3 for 2023, the null counting as zero |
| `Scenarios.WorkedSeries` | src/streamlit_app.py:184-185 | on the worked table the series is (2022, 5) and (2023, 3) |
| `TimeSeries.QueryableName` | src/streamlit_app.py:185 | a name the query reads as one column is non-empty, does not start with a digit, is not a Python keyword, and contains no space, operator, bracket, quote or other punctuation that would split the expression `name > 0` |
| `Scenarios.IndicatorQueryable` | src/streamlit_app.py:185 | `total_desastres` can be read by the query |
| `Scenarios.ZeroTableSelection` | src/streamlit_app.py:96-106 | on the one-row zero table a fresh session selects `total_desastres`, whose valid years include 2023, while no year has a positive total |
| `Scenarios.WorkedZeroRun` | src/streamlit_app.py:96-106 | on the one-row zero table the corrected run selects `total_desastres` and succeeds with no highlight |
| `Scenarios.WorkedZeroTable` | src/streamlit_app.py:201-205 | on a one-row table with a zero value the script as written stops at the highlight read, while the corrected run succeeds without a highlight |
| `Scenarios.WorkedGeometryClash` | src/streamlit_app.py:144-145 | an indicator table with its own `geometry` column stops the run at the geometry filter |
| `Scenarios.WorkedMissingYearColumn` | src/streamlit_app.py:100 | an indicator table without `ano` stops at the year read |
| `Scenarios.WorkedMap` | src/streamlit_app.py:142-146 | on the worked table the 2023 map holds only municipality 1, kept although its value is null; municipality 2, absent from the geometry table, is dropped |

## Left out

- Page configuration, sidebar text, CSS, the Plotly templates and the figure construction (lines 1-55, 72-81, 117-135, 150-171, 188-211, 229-244): presentation over libraries.
- CSV loading and the `st.cache_data` cache (lines 60-70): file I/O plus a framework cache; the tables are parameters of `Dashboard.Run`.
- WKT parsing with shapely and the GeoDataFrame (lines 147-148): the geometry is an opaque token.
- The OLS trendline and the `:.2f` formatting: floating-point statistics and presentation.
- The year inside the titles (`({ano})`): integer-to-text formatting only; the model keeps the two labels.
- `src/create_duckdb.py`: a one-shot ingestion script; the DuckDB file it builds is never opened by the dashboard script.
- `src/download_geometry.py`: produces `../data/municipalities.csv`, which line 63 reads as the geometry table. Producing it is file and network I/O; the table itself is the `munis` parameter of `Dashboard.RunCorrected`, and its extra columns are unused.
- The geometry table is assumed to have `code_muni`, `name_muni` and `geometry` (the fields of `Frame.Municipality`); a geometry file lacking one of them would make line 144 or 145 raise, which is not modelled.
- Validating indicator names against an allow-list, SQL parameterisation and named schema errors: the script has no counterpart. Indicators only come from a select box over the indicator list.
- Floating point: indicator values are exact reals, so rounding in pandas sums is not modelled.
- Labels.Label: states case mapping for ASCII letters only; Python's `capitalize` also maps other Unicode letters and title-cases the first character.
- TimeSeries.QueryableName: treats every non-ASCII character as an identifier character; Python admits only the letters and digits of its identifier classes. Names the query would read differently without failing (a name that is also a pandas-resolvable variable) are not modelled.
- Dashboard.SelectBox: when a pick is not among the options it falls back to the initial value; the widget library's own handling of stale picks is not visible.

## Findings

| source | as written | input that shows it | evidently intended | confidence | as-written member | corrected member |
|---|---|---|---|---|---|---|
| src/streamlit_app.py:201-205 | the last point of the time series is read with `iloc[-1]` without checking that the series is non-empty; only the valid years are checked (lines 101-103) | one row, `ano` 2023, `total_desastres` 0: the valid years are [2023], but no year has a positive total, so the series is empty and `iloc[-1]` raises | draw the chart without the highlighted point when the series is empty | medium; not executed | `Dashboard.Run`, `TimeSeries.ZeroIndicatorLeavesNoLastPoint` (about `TimeSeries.LastPoint`) | `TimeSeries.Highlight`, used by `Dashboard.RunCorrected` |

=== FILE: choropleth.dfy ===
/** The rows behind the choropleth map: the selected year's indicator rows
    left-joined to the municipality geometries, without the rows that end up
    with no geometry. */
module Choropleth {
  import opened Wrappers
  import opened Frame
  import opened Seqs

  /** A row of the merged table: the indicator row and the geometry-table
      columns, all null when no municipality matched. */
  datatype Merged = Merged(row: Row, code: Option<int>, name: Option<string>, geometry: Option<Geometry>)

  /** `row` joined to the municipality `m`. */
  function Joined(row: Row, m: Municipality): Merged {
    Merged(row, Some(m.code), Some(m.name), m.geometry)
  }

  /** `row` when no municipality matched it. */
  function Unmatched(row: Row): Merged {
    Merged(row, None, None, None)
  }

  /** The geometry table has at most one row per municipality code. */
  predicate UniqueCodes(munis: seq<Municipality>) {
    forall i, j :: 0 <= i < j < |munis| ==> munis[i].code != munis[j].code
  }

  /** `row` joined to every municipality whose `code_muni` equals its
      `id_municipio`, in the geometry table's order. */
  function Matches(row: Row, munis: seq<Municipality>): (r: seq<Merged>)
    ensures forall m :: m in r <==> exists g :: g in munis && g.code == row.idMunicipio && m == Joined(row, g)
  {
    if |munis| == 0 then []
    else
      assert forall g :: g in munis <==> g == munis[0] || g in munis[1..];
      (if munis[0].code == row.idMunicipio then [Joined(row, munis[0])] else [])
      + Matches(row, munis[1..])
  }

  /** The left merge of one indicator row: its matches, or the row once with
      null geometry-table columns when nothing matches. */
  function MergeRow(row: Row, munis: seq<Municipality>): (r: seq<Merged>)
    ensures |r| > 0
    ensures forall m :: m in r ==> m.row == row && (m.code.Some? ==> m.code.value == row.idMunicipio)
    ensures forall m :: m in r && m.geometry.Some? <==>
      exists g :: g in munis && g.code == row.idMunicipio && g.geometry.Some? && m == Joined(row, g)
  {
    var ms := Matches(row, munis);
    if |ms| == 0 then [Unmatched(row)] else ms
  }

  /** `merge(municipalities, left_on="id_municipio", right_on="code_muni",
      how="left")`: every indicator row survives, in order, once per match. */
  function LeftMerge(rows: seq<Row>, munis: seq<Municipality>): (r: seq<Merged>)
    ensures |r| >= |rows|
    ensures forall row :: row in rows ==> exists m :: m in r && m.row == row
    ensures forall m :: m in r ==> m.row in rows && (m.code.Some? ==> m.code.value == m.row.idMunicipio)
    ensures forall m :: m in r && m.geometry.Some? <==>
      exists row, g :: row in rows && g in munis && g.code == row.idMunicipio && g.geometry.Some? && m == Joined(row, g)
  {
    if |rows| == 0 then []
    else
      var head := MergeRow(rows[0], munis);
      assert forall row :: row in rows <==> row == rows[0] || row in rows[1..];
      assert head[0] in head;
      head + LeftMerge(rows[1..], munis)
  }

  /** The mask `notna()` on the geometry column. */
  predicate HasGeometry(m: Merged) {
    m.geometry.Some?
  }

  /** `dropna(subset=["geometry"])`. */
  function WithGeometry(merged: seq<Merged>): (r: seq<Merged>)
    ensures forall m :: m in r <==> m in merged && m.geometry.Some?
  {
    Filter(merged, HasGeometry)
  }

  /** The choropleth rows for `year`: every row is of that year, carries a
      geometry and joins a municipality of its own code, and every such join
      appears. Indicator cells are not inspected, so a null value is kept. */
  function MapRows(rows: seq<Row>, munis: seq<Municipality>, year: int): (r: seq<Merged>)
    ensures forall m :: m in r ==> m.row.ano == year && m.geometry.Some? && m.code == Some(m.row.idMunicipio)
    ensures forall m :: m in r <==>
      exists row, g :: row in rows && g in munis && row.ano == year && g.code == row.idMunicipio
                       && g.geometry.Some? && m == Joined(row, g)
  {
    WithGeometry(LeftMerge(YearRows(rows, year), munis))
  }

  /** Merging row by row: the left merge keeps the order of the indicator rows. */
  lemma {:induction false} LeftMergeConcat(a: seq<Row>, b: seq<Row>, munis: seq<Municipality>)
    ensures LeftMerge(a + b, munis) == LeftMerge(a, munis) + LeftMerge(b, munis)
  {
    if |a| == 0 {
      assert a + b == b;
    } else {
      assert (a + b)[0] == a[0];
      assert (a + b)[1..] == a[1..] + b;
      LeftMergeConcat(a[1..], b, munis);
    }
  }

  /** The map rows of two stretches of the table are the map rows of each,
      in table order. */
  lemma MapRowsConcat(a: seq<Row>, b: seq<Row>, munis: seq<Municipality>, year: int)
    ensures MapRows(a + b, munis, year) == MapRows(a, munis, year) + MapRows(b, munis, year)
  {
    FilterConcat(a, b, InYear(year));
    LeftMergeConcat(YearRows(a, year), YearRows(b, year), munis);
    FilterConcat(LeftMerge(YearRows(a, year), munis), LeftMerge(YearRows(b, year), munis), HasGeometry);
  }

  /** A row whose code no municipality carries has no matches. */
  lemma {:induction false} NoMatches(row: Row, munis: seq<Municipality>)
    requires forall g :: g in munis ==> g.code != row.idMunicipio
    ensures Matches(row, munis) == []
  {
    if |munis| > 0 {
      assert munis[0] in munis;
      NoMatches(row, munis[1..]);
    }
  }

  /** With unique municipality codes a row matches at most one municipality. */
  lemma {:induction false} MatchesAtMostOne(row: Row, munis: seq<Municipality>)
    requires UniqueCodes(munis)
    ensures |Matches(row, munis)| <= 1
  {
    if |munis| > 0 {
      if munis[0].code == row.idMunicipio {
        forall g | g in munis[1..]
          ensures g.code != row.idMunicipio
        {
          var k :| 0 <= k < |munis[1..]| && munis[1..][k] == g;
          assert munis[0].code != munis[k + 1].code;
        }
        NoMatches(row, munis[1..]);
      } else {
        MatchesAtMostOne(row, munis[1..]);
      }
    }
  }

  /** With unique municipality codes the left merge neither adds nor drops rows. */
  lemma {:induction false} LeftMergeSameLength(rows: seq<Row>, munis: seq<Municipality>)
    requires UniqueCodes(munis)
    ensures |LeftMerge(rows, munis)| == |rows|
  {
    if |rows| > 0 {
      MatchesAtMostOne(rows[0], munis);
      LeftMergeSameLength(rows[1..], munis);
    }
  }

  /** With unique municipality codes the map has at most one row per
      indicator row of the selected year. */
  lemma MapRowsAtMostOnePerRow(rows: seq<Row>, munis: seq<Municipality>, year: int)
    requires UniqueCodes(munis)
    ensures |MapRows(rows, munis, year)| <= |YearRows(rows, year)|
  {
    LeftMergeSameLength(YearRows(rows, year), munis);
  }
}

=== FILE: dashboard.dfy ===
/** One run of the dashboard script: from the two tables and the user's
    widget choices to the data of the three charts, or to the point where the
    script stops. */
module Dashboard {
  import opened Wrappers
  import opened Frame
  import opened Indicators
  import opened Years
  import opened Choropleth
  import opened TimeSeries
  import opened Scatter
  import opened Labels

  /** Why a run ends before all three charts are drawn. */
  datatype Halt =
    | NoIndicators                              // `indicator_cols[0]` on an empty list raises
    | MissingColumn(column: string)             // `ano` or `id_municipio` is not a column: a KeyError
    | IndicatorWithoutValues(indicator: string) // the "indicator without values" error and `st.stop()`
    | GeometryColumnClash                       // both tables have `geometry`; the merge renames it and `dropna` raises
    | UnqueryableIndicator(indicator: string)   // the `> 0` query cannot read the indicator's name
    | EmptySeries(indicator: string)            // `iloc[-1]` on an empty time series raises

  /** The user's widget choices; `None` leaves a widget at its initial value. */
  datatype Picks = Picks(primary: Option<string>, year: Option<int>, secondary: Option<string>)

  /** The untouched widgets of a fresh session. */
  const Untouched: Picks := Picks(None, None, None)

  /** Everything the three charts are drawn from. */
  datatype View = View(
    primary: string,
    year: int,
    secondary: string,
    primaryLabel: string,
    secondaryLabel: string,
    mapRows: seq<Merged>,
    series: seq<Point>,
    highlight: Option<Point>,
    scatter: ScatterView)

  /** A select box shows one of its options: the user's pick when it is an
      option, otherwise its initial value. */
  function SelectBox<T(==)>(options: seq<T>, initial: T, pick: Option<T>): (r: T)
    requires initial in options
    ensures r in options
    ensures pick.Some? && pick.value in options ==> r == pick.value
    ensures pick.None? ==> r == initial
  {
    if pick.Some? && pick.value in options then pick.value else initial
  }

  /** The second indicator: the primary one when it is the only indicator,
      otherwise a pick among the other indicators. */
  function SecondIndicator(indicators: seq<string>, primary: string, pick: Option<string>): (r: string)
    requires primary in indicators
    ensures r in indicators
    ensures r == primary <==> forall c :: c in indicators ==> c == primary
    ensures pick.Some? && pick.value in indicators && pick.value != primary ==> r == pick.value
    ensures pick.None? && |SecondaryOptions(indicators, primary)| > 0 ==> r == SecondaryOptions(indicators, primary)[0]
  {
    var options := SecondaryOptions(indicators, primary);
    if |options| == 0 then primary else SelectBox(options, options[0], pick)
  }

  /** The indicator the primary select box shows. */
  function PrimaryIndicator(table: Table, picks: Picks): (r: string)
    requires |IndicatorColumns(table.columns)| > 0
    ensures r in IndicatorColumns(table.columns)
    ensures picks.primary.Some? && picks.primary.value in IndicatorColumns(table.columns) ==> r == picks.primary.value
    ensures picks.primary.None? ==> (r == PreferredIndicator <==> PreferredIndicator in IndicatorColumns(table.columns))
    ensures picks.primary.None? && PreferredIndicator !in IndicatorColumns(table.columns) ==> r == IndicatorColumns(table.columns)[0]
  {
    var indicators := IndicatorColumns(table.columns);
    SelectBox(indicators, DefaultIndicator(indicators), picks.primary)
  }

  /** The selections are consistent with each other, every map row is a
      geometry-matched row of the year and every such join of a table row
      is drawn, the series has exactly the years with a positive total, and
      the scatter rows are exactly the year's rows with both values.
      `Charts` and `ChartsLatestYear` state the rest about the view
      `Charts` builds. */
  ghost predicate Faithful(table: Table, munis: seq<Municipality>, v: View) {
    && v.primary in IndicatorColumns(table.columns)
    && YearHasData(table.rows, v.primary, v.year)
    && v.secondary in IndicatorColumns(table.columns)
    && (v.secondary == v.primary <==> forall c :: c in IndicatorColumns(table.columns) ==> c == v.primary)
    && (forall m :: m in v.mapRows ==> m.row.ano == v.year && m.geometry.Some? && m.code == Some(m.row.idMunicipio))
    && (forall row, g ::
          (row in table.rows && g in munis && row.ano == v.year && g.code == row.idMunicipio && g.geometry.Some?)
          ==> Joined(row, g) in v.mapRows)
    && AscendingYears(v.series)
    && (forall p :: p in v.series ==> p.total > 0.0 && p.total == YearTotal(table.rows, v.primary, p.year))
    && (forall y :: YearTotal(table.rows, v.primary, y) > 0.0 ==> Point(y, YearTotal(table.rows, v.primary, y)) in v.series)
    && (v.highlight.Some? <==> |v.series| > 0)
    && (v.scatter.InsufficientData? <==>
          forall row :: row in table.rows && row.ano == v.year ==> !HasValue(row, v.primary) || !HasValue(row, v.secondary))
    && (v.scatter.Plot? ==>
          forall row :: row in v.scatter.rows <==>
            row in table.rows && row.ano == v.year && HasValue(row, v.primary) && HasValue(row, v.secondary))
    && |v.primaryLabel| == |v.primary| && '_' !in v.primaryLabel
  }

  /** Every pick that is one of its widget's options is the one shown; a
      fresh session shows the preferred indicator and year when offered. */
  ghost predicate Honours(table: Table, picks: Picks, v: View) {
    && (picks.primary.Some? && picks.primary.value in IndicatorColumns(table.columns) ==> v.primary == picks.primary.value)
    && (picks.year.Some? && picks.year.value in ValidYears(table.rows, v.primary) ==> v.year == picks.year.value)
    && ((picks.secondary.Some? && picks.secondary.value in IndicatorColumns(table.columns) && picks.secondary.value != v.primary)
          ==> v.secondary == picks.secondary.value)
    && (picks == Untouched ==>
          && (v.primary == PreferredIndicator <==> PreferredIndicator in IndicatorColumns(table.columns))
          && (v.year == PreferredYear <==> YearHasData(table.rows, v.primary, PreferredYear)))
  }

  /** The second half of a run, once the primary indicator has values and
      the query can read it: the widgets for year and second indicator,
      then the map, the time series and the scatter data. */
  function Charts(table: Table, munis: seq<Municipality>, picks: Picks): (v: View)
    requires |IndicatorColumns(table.columns)| > 0
    requires |ValidYears(table.rows, PrimaryIndicator(table, picks))| > 0
    ensures v.primary == PrimaryIndicator(table, picks)
    ensures Faithful(table, munis, v)
    ensures Honours(table, picks, v)
    ensures forall m :: m in v.mapRows <==>
      exists row, g :: row in table.rows && g in munis && row.ano == v.year && g.code == row.idMunicipio
                       && g.geometry.Some? && m == Joined(row, g)
    ensures v.highlight.Some? ==> v.highlight.value == v.series[|v.series| - 1]
    ensures v.primaryLabel == Label(v.primary) && v.secondaryLabel == Label(v.secondary)
    ensures picks.primary.None? && PreferredIndicator !in IndicatorColumns(table.columns) ==>
      v.primary == IndicatorColumns(table.columns)[0]
    ensures picks.secondary.None? && |SecondaryOptions(IndicatorColumns(table.columns), v.primary)| > 0 ==>
      v.secondary == SecondaryOptions(IndicatorColumns(table.columns), v.primary)[0]
  {
    var indicators := IndicatorColumns(table.columns);
    var primary := PrimaryIndicator(table, picks);
    var years := ValidYears(table.rows, primary);
    var year := SelectBox(years, DefaultYear(years), picks.year);
    var secondary := SecondIndicator(indicators, primary, picks.secondary);
    var series := Series(table.rows, primary);
    View(
      primary,
      year,
      secondary,
      Label(primary),
      Label(secondary),
      MapRows(table.rows, munis, year),
      series,
      Highlight(series),
      ScatterSection(table.rows, year, primary, secondary))
  }

  /** Without a year pick, when 2023 is not a valid year, the year widget
      starts at the latest valid year. */
  lemma ChartsLatestYear(table: Table, munis: seq<Municipality>, picks: Picks)
    requires |IndicatorColumns(table.columns)| > 0
    requires |ValidYears(table.rows, PrimaryIndicator(table, picks))| > 0
    ensures var v := Charts(table, munis, picks);
      picks.year.None? && PreferredYear !in ValidYears(table.rows, v.primary) ==>
        forall y :: y in ValidYears(table.rows, v.primary) ==> y <= v.year
  {
    var years := ValidYears(table.rows, PrimaryIndicator(table, picks));
    var v := Charts(table, munis, picks);
    assert v.year == SelectBox(years, DefaultYear(years), picks.year);
    if picks.year.None? && PreferredYear !in years {
      DefaultYearIsLatest(years);
    }
  }

  /** One run of the script with the highlight read corrected (`Highlight`
      instead of `iloc[-1]`). It stops, in this order, when the table has no
      indicator column, when it lacks `ano`, when the selected indicator has
      no value at all, when it lacks `id_municipio`, when the indicator table
      has its own `geometry` column, or when the `> 0` query cannot read the
      indicator's name. Otherwise the user's picks are honoured when they
      are options, the selections are consistent with each other, and the
      view is the one `Charts` builds, so `Charts` and `ChartsLatestYear` apply to it. */
  function RunCorrected(table: Table, munis: seq<Municipality>, picks: Picks): (r: Result<View, Halt>)
    ensures r == Failure(NoIndicators) <==> |IndicatorColumns(table.columns)| == 0
    ensures r.Failure? && r.error.MissingColumn? ==>
      r.error.column in ["ano", "id_municipio"] && r.error.column !in table.columns
    ensures r.Failure? && r.error.IndicatorWithoutValues? ==>
      && |IndicatorColumns(table.columns)| > 0
      && r.error.indicator == PrimaryIndicator(table, picks)
      && forall row :: row in table.rows ==> !HasValue(row, r.error.indicator)
    ensures r == Failure(GeometryColumnClash) ==> "geometry" in table.columns
    ensures "geometry" in table.columns ==> r.Failure?
    ensures r.Failure? && r.error.UnqueryableIndicator? ==>
      r.error.indicator in IndicatorColumns(table.columns) && !QueryableName(r.error.indicator)
    ensures r.Failure? ==> !r.error.EmptySeries?
    ensures r.Success? ==>
      && |IndicatorColumns(table.columns)| > 0
      && |ValidYears(table.rows, PrimaryIndicator(table, picks))| > 0
      && r.value == Charts(table, munis, picks)
    ensures r.Success? ==>
      && HasKeyColumns(table)
      && QueryableName(r.value.primary)
      && Faithful(table, munis, r.value)
      && Honours(table, picks, r.value)
  {
    if |IndicatorColumns(table.columns)| == 0 then Failure(NoIndicators)
    else
      var primary := PrimaryIndicator(table, picks);
      if "ano" !in table.columns then Failure(MissingColumn("ano"))
      else if |ValidYears(table.rows, primary)| == 0 then Failure(IndicatorWithoutValues(primary))
      else if "id_municipio" !in table.columns then Failure(MissingColumn("id_municipio"))
      else if "geometry" in table.columns then Failure(GeometryColumnClash)
      else if !QueryableName(primary) then Failure(UnqueryableIndicator(primary))
      else Success(Charts(table, munis, picks))
  }

  /** One run of the script as written: as `RunCorrected`, except that an
      empty time series stops the run at the highlight read, before the
      scatter section, so every run that reaches the end has a highlight. */
  function Run(table: Table, munis: seq<Municipality>, picks: Picks): (r: Result<View, Halt>)
    ensures r.Success? <==>
      RunCorrected(table, munis, picks).Success? && |RunCorrected(table, munis, picks).value.series| > 0
    ensures r.Success? ==> r.value.highlight.Some? && r.value == RunCorrected(table, munis, picks).value
    ensures r.Failure? && r.error.EmptySeries? ==>
      RunCorrected(table, munis, picks).Success?
      && r.error.indicator == RunCorrected(table, munis, picks).value.primary
      && forall y :: YearTotal(table.rows, r.error.indicator, y) <= 0.0
    ensures r.Failure? && !r.error.EmptySeries? ==> r == RunCorrected(table, munis, picks)
  {
    match RunCorrected(table, munis, picks)
    case Failure(halt) => Failure(halt)
    case Success(v) => if v.highlight.None? then Failure(EmptySeries(v.primary)) else Success(v)
  }
}

=== FILE: frame.dfy ===
/** The two tables the dashboard reads: the indicator table (one row per
    municipality and year) and the municipality-geometry table. */
module Frame {
  import opened Wrappers
  import opened Seqs

  /** One row of the indicator table: the structural columns `ano` and
      `id_municipio`, and the indicator cells by column name. A column that
      is absent from `values` reads as null. */
  datatype Row = Row(ano: int, idMunicipio: int, values: map<string, Option<real>>)

  /** A municipality boundary, kept opaque (its well-known-text string). */
  datatype Geometry = Wkt(text: string)

  /** One row of the geometry table (`code_muni`, `name_muni`, `geometry`);
      the geometry may be null. */
  datatype Municipality = Municipality(code: int, name: string, geometry: Option<Geometry>)

  /** The indicator table: its column names in file order and its rows. */
  datatype Table = Table(columns: seq<string>, rows: seq<Row>)

  /** The table has the two structural columns the script reads by name:
      `ano` (line 100) and `id_municipio` (the merge key, line 144). */
  predicate HasKeyColumns(t: Table) {
    "ano" in t.columns && "id_municipio" in t.columns
  }

  /** The cell of `row` in column `indicator`. */
  function Value(row: Row, indicator: string): Option<real> {
    if indicator in row.values then row.values[indicator] else None
  }

  /** `df[indicator].notna()` for one row. */
  predicate HasValue(row: Row, indicator: string) {
    Value(row, indicator).Some?
  }

  /** The cell as pandas `sum` counts it: a null contributes zero. */
  function ValueOrZero(row: Row, indicator: string): real {
    Value(row, indicator).GetOr(0.0)
  }

  /** Some row of year `year` has a non-null `indicator` cell. */
  predicate YearHasData(rows: seq<Row>, indicator: string, year: int) {
    exists row :: row in rows && row.ano == year && HasValue(row, indicator)
  }

  /** The mask `df["ano"] == year`. */
  function InYear(year: int): Row -> bool {
    (row: Row) => row.ano == year
  }

  /** `df[df["ano"] == year]`: the rows of one year, in table order. */
  function YearRows(rows: seq<Row>, year: int): (r: seq<Row>)
    ensures forall row :: row in r <==> row in rows && row.ano == year
  {
    Filter(rows, InYear(year))
  }
}

=== FILE: indicators.dfy ===
/** Which columns are indicators, which one is selected first, and which
    ones may be compared against it. */
module Indicators {
  import opened Seqs

  /** Structural columns that are never offered as indicators. */
  const Structural: seq<string> := ["ano", "id_municipio", "geometry"]

  /** The indicator preferred as the initial selection. */
  const PreferredIndicator: string := "total_desastres"

  /** The table's columns in their original order, without the structural ones. */
  function IndicatorColumns(columns: seq<string>): (r: seq<string>)
    ensures forall c :: c in r <==> c in columns && c !in Structural
    ensures "ano" !in r && "id_municipio" !in r && "geometry" !in r
  {
    Filter(columns, c => c !in Structural)
  }

  /** Exactly the structural columns are removed: every other column keeps
      each of its occurrences, and their order is the table's order. */
  lemma IndicatorColumnsExact(a: seq<string>, b: seq<string>, c: string)
    ensures IndicatorColumns(a + b) == IndicatorColumns(a) + IndicatorColumns(b)
    ensures multiset(IndicatorColumns(a))[c] == if c in Structural then 0 else multiset(a)[c]
  {
    FilterConcat(a, b, c => c !in Structural);
    FilterMultiplicity(a, c => c !in Structural, c);
  }

  /** The initially selected indicator: the preferred one when offered,
      otherwise the first indicator. */
  function DefaultIndicator(indicators: seq<string>): (r: string)
    requires |indicators| > 0
    ensures r in indicators
    ensures r == PreferredIndicator <==> PreferredIndicator in indicators
    ensures PreferredIndicator !in indicators ==> r == indicators[0]
  {
    if PreferredIndicator in indicators then PreferredIndicator else indicators[0]
  }

  /** The indicators offered for comparison: all but the primary one, in order. */
  function SecondaryOptions(indicators: seq<string>, primary: string): (r: seq<string>)
    ensures primary !in r
    ensures forall c :: c in r <==> c in indicators && c != primary
    ensures |r| == 0 <==> forall c :: c in indicators ==> c == primary
  {
    var r := Filter(indicators, c => c != primary);
    assert |r| > 0 ==> r[0] in r;
    r
  }

  /** The comparison options keep the indicators' order and every occurrence
      of each non-primary indicator. */
  lemma SecondaryOptionsExact(a: seq<string>, b: seq<string>, primary: string, c: string)
    ensures SecondaryOptions(a + b, primary) == SecondaryOptions(a, primary) + SecondaryOptions(b, primary)
    ensures multiset(SecondaryOptions(a, primary))[c] == if c == primary then 0 else multiset(a)[c]
  {
    FilterConcat(a, b, c => c != primary);
    FilterMultiplicity(a, c => c != primary, c);
  }
}

=== FILE: labels.dfy ===
/** The human-readable form of an indicator name used in titles and axis
    labels: `name.replace('_', ' ').capitalize()`, over ASCII letters. */
module Labels {

  predicate IsUpper(c: char) {
    'A' <= c <= 'Z'
  }

  predicate IsLower(c: char) {
    'a' <= c <= 'z'
  }

  function ToUpper(c: char): (r: char)
    ensures !IsLower(r)
    ensures ToLower(r) == ToLower(c)
    ensures r == ' ' <==> c == ' '
    ensures r == '_' <==> c == '_'
  {
    if IsLower(c) then (c as int - 32) as char else c
  }

  function ToLower(c: char): (r: char)
    ensures !IsUpper(r)
    ensures r == ' ' <==> c == ' '
    ensures r == '_' <==> c == '_'
  {
    if IsUpper(c) then (c as int + 32) as char else c
  }

  /** `replace('_', ' ')`. */
  function ReplaceUnderscores(s: string): (r: string)
    ensures |r| == |s|
    ensures forall i :: 0 <= i < |s| ==> r[i] == if s[i] == '_' then ' ' else s[i]
  {
    seq(|s|, i requires 0 <= i < |s| => if s[i] == '_' then ' ' else s[i])
  }

  /** `capitalize()`: the first character upper-cased, the rest lower-cased. */
  function Capitalize(s: string): (r: string)
    ensures |r| == |s|
    ensures |s| > 0 ==> r[0] == ToUpper(s[0])
    ensures forall i :: 0 < i < |s| ==> r[i] == ToLower(s[i])
  {
    if |s| == 0 then []
    else [ToUpper(s[0])] + seq(|s| - 1, i requires 0 <= i < |s| - 1 => ToLower(s[i + 1]))
  }

  /** The label of an indicator name: same length, no underscore left, a
      space exactly where the name had a space or an underscore, every other
      character the name's up to case, no lower-case letter first and no
      upper-case letter after it. */
  function Label(name: string): (r: string)
    ensures |r| == |name|
    ensures '_' !in r
    ensures forall i :: 0 <= i < |name| ==> (r[i] == ' ' <==> name[i] == ' ' || name[i] == '_')
    ensures forall i :: 0 <= i < |name| && name[i] != '_' ==> ToLower(r[i]) == ToLower(name[i])
    ensures |r| > 0 ==> !IsLower(r[0])
    ensures forall i :: 0 < i < |r| ==> !IsUpper(r[i])
  {
    Capitalize(ReplaceUnderscores(name))
  }

  /** Labelling a label changes nothing. */
  lemma LabelIdempotent(name: string)
    ensures Label(Label(name)) == Label(name)
  {
  }
}

=== FILE: scatter.dfy ===
/** The rows behind the scatterplot comparing two indicators in one year. */
module Scatter {
  import opened Frame
  import opened Seqs

  /** The mask of `dropna(subset=[a, b])`. */
  function BothPresent(a: string, b: string): Row -> bool {
    (row: Row) => HasValue(row, a) && HasValue(row, b)
  }

  /** `df[df["ano"] == year].dropna(subset=[a, b])`: exactly the rows of
      `year` whose two indicator cells are both non-null. */
  function ScatterRows(rows: seq<Row>, year: int, a: string, b: string): (r: seq<Row>)
    ensures forall row :: row in r ==> row.ano == year && HasValue(row, a) && HasValue(row, b)
    ensures forall row :: row in rows && row.ano == year && HasValue(row, a) && HasValue(row, b) ==> row in r
  {
    Filter(YearRows(rows, year), BothPresent(a, b))
  }

  /** The scatter rows keep table order and every copy of each qualifying
      row, and nothing else: their count is the count of qualifying rows. */
  lemma ScatterRowsExact(xs: seq<Row>, ys: seq<Row>, year: int, a: string, b: string, row: Row)
    ensures ScatterRows(xs + ys, year, a, b) == ScatterRows(xs, year, a, b) + ScatterRows(ys, year, a, b)
    ensures multiset(ScatterRows(xs, year, a, b))[row] ==
            if row.ano == year && HasValue(row, a) && HasValue(row, b) then multiset(xs)[row] else 0
  {
    FilterConcat(xs, ys, InYear(year));
    FilterConcat(YearRows(xs, year), YearRows(ys, year), BothPresent(a, b));
    FilterMultiplicity(xs, InYear(year), row);
    FilterMultiplicity(YearRows(xs, year), BothPresent(a, b), row);
  }

  /** What the scatter section shows: a message when no row qualifies,
      otherwise the plot of the qualifying rows. */
  datatype ScatterView = InsufficientData | Plot(rows: seq<Row>)

  /** The scatter section: the message exactly when no row of `year` has both
      indicators, otherwise a plot of a non-empty set of qualifying rows. */
  function ScatterSection(rows: seq<Row>, year: int, a: string, b: string): (r: ScatterView)
    ensures r.InsufficientData? <==>
      forall row :: row in rows && row.ano == year ==> !HasValue(row, a) || !HasValue(row, b)
    ensures r.Plot? ==> |r.rows| > 0 && forall row :: row in r.rows ==> row.ano == year && HasValue(row, a) && HasValue(row, b)
    ensures r.Plot? ==> forall row :: row in r.rows <==> row in rows && row.ano == year && HasValue(row, a) && HasValue(row, b)
  {
    var points := ScatterRows(rows, year, a, b);
    assert |points| > 0 ==> points[0] in points;
    if |points| == 0 then InsufficientData else Plot(points)
  }
}

=== FILE: scenarios.dfy ===
/** A small worked table: two municipalities, two years, one null cell, and
    a geometry table that lacks the second municipality. */
module Scenarios {
  import opened Wrappers
  import opened Frame
  import opened Years
  import opened Choropleth
  import opened TimeSeries
  import opened Seqs
  import opened Dashboard
  import opened Indicators

  const Indicator: string := "total_desastres"

  const Rows: seq<Row> := [
    Row(2022, 1, map[Indicator := Some(5.0)]),
    Row(2023, 1, map[Indicator := None]),
    Row(2023, 2, map[Indicator := Some(3.0)])
  ]

  const Munis: seq<Municipality> := [Municipality(1, "Uno", Some(Wkt("POLYGON ((0 0, 1 0, 1 1, 0 0))")))]

  /** The successive tails the recursive definitions walk through. */
  lemma RowsTails()
    ensures Rows[1..] == [Rows[1], Rows[2]]
    ensures Rows[1..][1..] == [Rows[2]]
    ensures Rows[1..][1..][1..] == []
  {
  }

  /** Both years have a value. */
  lemma WorkedYears()
    ensures ValidYears(Rows, Indicator) == [2022, 2023]
  {
    assert Rows[0] in Rows && Rows[2] in Rows;
    IncreasingUnique(ValidYears(Rows, Indicator), [2022, 2023]);
  }

  /** Each year's total counts the null as zero. */
  lemma WorkedTotals()
    ensures YearTotal(Rows, Indicator, 2022) == 5.0
    ensures YearTotal(Rows, Indicator, 2023) == 3.0
  {
    RowsTails();
    assert Value(Rows[0], Indicator) == Some(5.0);
    assert Value(Rows[1], Indicator) == None;
    assert Value(Rows[2], Indicator) == Some(3.0);
    assert YearTotal(Rows[1..][1..], Indicator, 2022) == 0.0;
    assert YearTotal(Rows[1..], Indicator, 2022) == 0.0;
    assert YearTotal(Rows[1..][1..], Indicator, 2023) == 3.0;
    assert YearTotal(Rows[1..], Indicator, 2023) == 3.0;
  }

  /** The grouping keys are the two years, in order. */
  lemma WorkedKeys()
    ensures SortedDistinct(AllYears(Rows)) == [2022, 2023]
  {
    RowsTails();
    assert AllYears(Rows[1..][1..]) == [2023];
    assert AllYears(Rows[1..]) == [2023, 2023];
    assert AllYears(Rows) == [2022, 2023, 2023];
    IncreasingUnique(SortedDistinct(AllYears(Rows)), [2022, 2023]);
  }

  /** The time series has one point per year, the null counting as zero. */
  lemma WorkedSeries()
    ensures Series(Rows, Indicator) == [Point(2022, 5.0), Point(2023, 3.0)]
  {
    WorkedTotals();
    WorkedKeys();
    assert GroupSums(Rows, Indicator) == [Point(2022, 5.0), Point(2023, 3.0)];
  }

  /** Municipality 1 joins the geometry table; municipality 2 does not. */
  lemma WorkedMerge()
    ensures MergeRow(Rows[1], Munis) == [Joined(Rows[1], Munis[0])]
    ensures MergeRow(Rows[2], Munis) == [Unmatched(Rows[2])]
  {
    assert Munis[1..] == [];
    assert Matches(Rows[1], Munis) == [Joined(Rows[1], Munis[0])];
    assert Matches(Rows[2], Munis) == [];
  }

  /** The 2023 map keeps municipality 1 although its cell is null, and drops
      municipality 2, which has no geometry. */
  lemma WorkedMap()
    ensures MapRows(Rows, Munis, 2023) == [Joined(Rows[1], Munis[0])]
  {
    RowsTails();
    assert Filter(Rows[1..][1..], InYear(2023)) == [Rows[2]];
    assert Filter(Rows[1..], InYear(2023)) == [Rows[1], Rows[2]];
    var year := YearRows(Rows, 2023);
    assert year == [Rows[1], Rows[2]];
    WorkedMerge();
    assert year[1..] == [Rows[2]];
    assert LeftMerge(year[1..], Munis) == [Unmatched(Rows[2])];
    var merged := LeftMerge(year, Munis);
    assert merged == [Joined(Rows[1], Munis[0]), Unmatched(Rows[2])];
    assert merged[1..] == [Unmatched(Rows[2])];
    assert Filter(merged[1..], HasGeometry) == [];
  }

  /** The indicator's name can be read by the `> 0` query. */
  lemma IndicatorQueryable()
    ensures QueryableName(Indicator)
  {
  }

  /** A one-row table whose only indicator value is zero. */
  const ZeroTable: Table := Table(["ano", "id_municipio", Indicator], [Row(2023, 1, map[Indicator := Some(0.0)])])

  /** On the zero table a fresh session selects the preferred indicator,
      which has the valid year 2023 but no positive total. */
  lemma ZeroTableSelection()
    ensures |IndicatorColumns(ZeroTable.columns)| > 0
    ensures PrimaryIndicator(ZeroTable, Untouched) == Indicator
    ensures 2023 in ValidYears(ZeroTable.rows, Indicator)
    ensures forall y :: YearTotal(ZeroTable.rows, Indicator, y) <= 0.0
  {
    var cols := IndicatorColumns(ZeroTable.columns);
    assert Indicator in cols;
    assert YearHasData(ZeroTable.rows, Indicator, 2023) by {
      assert ZeroTable.rows[0] in ZeroTable.rows;
    }
  }

  /** On the zero table the corrected run reaches the charts, with the
      preferred indicator, no series point and so no highlight. */
  lemma WorkedZeroRun()
    ensures RunCorrected(ZeroTable, Munis, Untouched).Success?
    ensures RunCorrected(ZeroTable, Munis, Untouched).value.primary == Indicator
    ensures RunCorrected(ZeroTable, Munis, Untouched).value.highlight == None
  {
    ZeroTableSelection();
    IndicatorQueryable();
    assert HasKeyColumns(ZeroTable);
    var r := RunCorrected(ZeroTable, Munis, Untouched);
    assert r.Success?;
    var v := Charts(ZeroTable, Munis, Untouched);
    assert r.value == v;
  }

  /** On the zero table the script as written stops at the highlight read,
      while the corrected run draws every chart without a highlight. */
  lemma WorkedZeroTable()
    ensures Run(ZeroTable, Munis, Untouched) == Failure(EmptySeries(Indicator))
    ensures RunCorrected(ZeroTable, Munis, Untouched).Success?
    ensures RunCorrected(ZeroTable, Munis, Untouched).value.highlight == None
  {
    WorkedZeroRun();
  }

  /** An indicator table with its own `geometry` column never reaches the charts. */
  lemma WorkedGeometryClash()
    ensures Run(Table(["ano", "id_municipio", Indicator, "geometry"], Rows), Munis, Untouched) == Failure(GeometryColumnClash)
  {
    var columns := ["ano", "id_municipio", Indicator, "geometry"];
    assert Indicator in IndicatorColumns(columns);
    assert YearHasData(Rows, Indicator, 2022) by {
      assert Rows[0] in Rows;
    }
  }

  /** A table without `ano` stops at the year column read. */
  lemma WorkedMissingYearColumn()
    ensures Run(Table(["id_municipio", Indicator], Rows), Munis, Untouched) == Failure(MissingColumn("ano"))
  {
    var columns := ["id_municipio", Indicator];
    assert Indicator in IndicatorColumns(columns);
  }
}

=== FILE: seqs.dfy ===
/** Order-preserving selection over sequences: the shape of every pandas
    boolean-mask filter (`df[mask]`, `dropna`, list comprehensions with a
    condition) used by the dashboard. */
module Seqs {

  /** The elements of `s` satisfying `p`, in their original order. */
  function Filter<T(!new)>(s: seq<T>, p: T -> bool): (r: seq<T>)
    ensures |r| <= |s|
    ensures forall x :: x in r <==> x in s && p(x)
  {
    if |s| == 0 then []
    else (if p(s[0]) then [s[0]] else []) + Filter(s[1..], p)
  }

  /** Filtering distributes over concatenation, so the relative order of the
      kept elements is the order they had in the input. */
  lemma {:induction false} FilterConcat<T(!new)>(a: seq<T>, b: seq<T>, p: T -> bool)
    ensures Filter(a + b, p) == Filter(a, p) + Filter(b, p)
  {
    if |a| == 0 {
      assert a + b == b;
    } else {
      assert (a + b)[1..] == a[1..] + b;
      FilterConcat(a[1..], b, p);
    }
  }

  /** Filtering keeps every copy of a selected element and no copy of a
      rejected one: the result is exactly the input minus the rejected rows. */
  lemma {:induction false} FilterMultiplicity<T(!new)>(s: seq<T>, p: T -> bool, x: T)
    ensures multiset(Filter(s, p))[x] == if p(x) then multiset(s)[x] else 0
  {
    if |s| > 0 {
      assert s == [s[0]] + s[1..];
      FilterMultiplicity(s[1..], p, x);
    }
  }

  /** Any strict ordering `less` that holds between earlier and later
      elements of `s` still holds in the filtered sequence. */
  lemma {:induction false} FilterKeepsOrder<T(!new)>(s: seq<T>, p: T -> bool, less: (T, T) -> bool)
    requires forall i, j :: 0 <= i < j < |s| ==> less(s[i], s[j])
    ensures forall i, j :: 0 <= i < j < |Filter(s, p)| ==> less(Filter(s, p)[i], Filter(s, p)[j])
  {
    if |s| > 0 {
      var tail := Filter(s[1..], p);
      FilterKeepsOrder(s[1..], p, less);
      forall x | x in tail
        ensures less(s[0], x)
      {
        var k :| 0 <= k < |s[1..]| && s[1..][k] == x;
        assert s[k + 1] == x;
      }
    }
  }
}

=== FILE: timeseries.dfy ===
/** The yearly totals behind the time-series chart, and the highlighted
    last point of that chart. */
module TimeSeries {
  import opened Wrappers
  import opened Frame
  import opened Seqs
  import opened Years

  /** One point of the chart: a year and the indicator's total in it. */
  datatype Point = Point(year: int, total: real)

  /** The total of `indicator` over the rows of `year`, each null counting
      as zero; the independent reference for the chart's values. */
  function YearTotal(rows: seq<Row>, indicator: string, year: int): real {
    if |rows| == 0 then 0.0
    else (if rows[0].ano == year then ValueOrZero(rows[0], indicator) else 0.0)
         + YearTotal(rows[1..], indicator, year)
  }

  /** The `ano` column. */
  function AllYears(rows: seq<Row>): (r: seq<int>)
    ensures forall y :: y in r <==> exists row :: row in rows && row.ano == y
  {
    if |rows| == 0 then []
    else
      assert forall row :: row in rows <==> row == rows[0] || row in rows[1..];
      [rows[0].ano] + AllYears(rows[1..])
  }

  /** Points ascending by year, so at most one per year. */
  predicate AscendingYears(ps: seq<Point>) {
    forall i, j :: 0 <= i < j < |ps| ==> ps[i].year < ps[j].year
  }

  /** The order the chart's points are kept in. */
  predicate EarlierYear(p: Point, q: Point) {
    p.year < q.year
  }

  /** A point that survives the `> 0` query. */
  predicate Positive(p: Point) {
    p.total > 0.0
  }

  /** A non-zero total needs a non-null cell in that year. */
  lemma {:induction false} NonZeroTotalHasData(rows: seq<Row>, indicator: string, year: int)
    requires YearTotal(rows, indicator, year) != 0.0
    ensures YearHasData(rows, indicator, year)
  {
    if |rows| > 0 {
      if rows[0].ano == year && HasValue(rows[0], indicator) {
        assert rows[0] in rows;
      } else {
        NonZeroTotalHasData(rows[1..], indicator, year);
        var row :| row in rows[1..] && row.ano == year && HasValue(row, indicator);
        assert row in rows;
      }
    }
  }

  /** The running total kept for `year`, zero before its first row. */
  function SumAt(acc: map<int, real>, year: int): real {
    if year in acc then acc[year] else 0.0
  }

  /** The one-pass accumulation of `groupby("ano")[indicator].sum()`: each
      row adds its cell, null as zero, to the running total of its year. */
  function Accumulate(rows: seq<Row>, indicator: string, acc: map<int, real>): (r: map<int, real>)
    ensures forall y :: y in r <==> y in acc || exists row :: row in rows && row.ano == y
  {
    if |rows| == 0 then acc
    else
      assert forall row :: row in rows <==> row == rows[0] || row in rows[1..];
      var year := rows[0].ano;
      Accumulate(rows[1..], indicator, acc[year := SumAt(acc, year) + ValueOrZero(rows[0], indicator)])
  }

  /** The accumulation adds to each running total exactly the year's total
      over the remaining rows. */
  lemma {:induction false} AccumulateTotals(rows: seq<Row>, indicator: string, acc: map<int, real>, year: int)
    ensures SumAt(Accumulate(rows, indicator, acc), year) == SumAt(acc, year) + YearTotal(rows, indicator, year)
  {
    if |rows| > 0 {
      var next := acc[rows[0].ano := SumAt(acc, rows[0].ano) + ValueOrZero(rows[0], indicator)];
      AccumulateTotals(rows[1..], indicator, next, year);
      assert SumAt(next, year) == SumAt(acc, year) + (if rows[0].ano == year then ValueOrZero(rows[0], indicator) else 0.0);
    }
  }

  /** The grouped sums by year: a key for exactly the years that occur in
      the table, each holding the year's total computed independently by
      `YearTotal`. */
  function GroupTotals(rows: seq<Row>, indicator: string): (r: map<int, real>)
    ensures forall y :: y in r <==> exists row :: row in rows && row.ano == y
    ensures forall y :: y in r ==> r[y] == YearTotal(rows, indicator, y)
  {
    var r := Accumulate(rows, indicator, map[]);
    assert forall y :: y in r ==> r[y] == YearTotal(rows, indicator, y) by {
      forall y | y in r
        ensures r[y] == YearTotal(rows, indicator, y)
      {
        AccumulateTotals(rows, indicator, map[], y);
      }
    }
    r
  }

  /** `df.groupby("ano")[indicator].sum().reset_index().sort_values("ano")`:
      one point per year that occurs in the table, ascending, carrying the
      accumulated sum, which equals that year's total. */
  function GroupSums(rows: seq<Row>, indicator: string): (r: seq<Point>)
    ensures AscendingYears(r)
    ensures forall p :: p in r <==>
      (exists row :: row in rows && row.ano == p.year) && p.total == YearTotal(rows, indicator, p.year)
  {
    var sums := GroupTotals(rows, indicator);
    var keys := SortedDistinct(AllYears(rows));
    assert forall k :: k in keys ==> k in sums;
    var r := seq(|keys|, i requires 0 <= i < |keys| => Point(keys[i], sums[keys[i]]));
    assert forall p :: p in r <==>
      (exists row :: row in rows && row.ano == p.year) && p.total == YearTotal(rows, indicator, p.year) by {
      forall p
        ensures p in r <==>
          (exists row :: row in rows && row.ano == p.year) && p.total == YearTotal(rows, indicator, p.year)
      {
        if p in r {
          var i :| 0 <= i < |r| && r[i] == p;
          assert keys[i] in keys;
        }
        if p.year in keys && p.total == YearTotal(rows, indicator, p.year) {
          var i :| 0 <= i < |keys| && keys[i] == p.year;
          assert r[i] == p;
        }
      }
    }
    r
  }

  /** Python's reserved words, which `DataFrame.query` cannot read as a
      column name. */
  const PythonKeywords: set<string> := {
    "False", "None", "True", "and", "as", "assert", "async", "await", "break",
    "class", "continue", "def", "del", "elif", "else", "except", "finally",
    "for", "from", "global", "if", "import", "in", "is", "lambda", "nonlocal",
    "not", "or", "pass", "raise", "return", "try", "while", "with", "yield"}

  /** A character that may start an identifier; every non-ASCII character
      is admitted. */
  predicate IdentifierStart(c: char) {
    'a' <= c <= 'z' || 'A' <= c <= 'Z' || c == '_' || c as int >= 128
  }

  /** A character that may continue an identifier. */
  predicate IdentifierPart(c: char) {
    IdentifierStart(c) || '0' <= c <= '9'
  }

  /** A column name that the query `f"{indicator} > 0"` reads as that
      column: a Python identifier that is not a reserved word. Any other
      name makes the query fail. */
  function QueryableName(name: string): (ok: bool)
    ensures ok ==> |name| > 0 && !('0' <= name[0] <= '9')
    ensures ok ==> name !in PythonKeywords
    ensures ok ==> forall i :: 0 <= i < |name| ==> name[i] !in " .,-+*/%<>=!&|~^()[]{}'\"#@:;`"
  {
    && |name| > 0
    && IdentifierStart(name[0])
    && (forall i :: 1 <= i < |name| ==> IdentifierPart(name[i]))
    && name !in PythonKeywords
  }

  /** The chart's points: ascending by year, each the year's total, all
      positive, and every year with a positive total present. The series is
      empty exactly when no year has a positive total. */
  function Series(rows: seq<Row>, indicator: string): (r: seq<Point>)
    ensures AscendingYears(r)
    ensures forall p :: p in r ==> p.total > 0.0 && p.total == YearTotal(rows, indicator, p.year)
    ensures forall y :: YearTotal(rows, indicator, y) > 0.0 ==> Point(y, YearTotal(rows, indicator, y)) in r
    ensures |r| == 0 <==> forall y :: YearTotal(rows, indicator, y) <= 0.0
  {
    var grouped := GroupSums(rows, indicator);
    FilterKeepsOrder(grouped, Positive, EarlierYear);
    var r := Filter(grouped, Positive);
    assert forall y :: YearTotal(rows, indicator, y) > 0.0 ==> Point(y, YearTotal(rows, indicator, y)) in r by {
      forall y | YearTotal(rows, indicator, y) > 0.0
        ensures Point(y, YearTotal(rows, indicator, y)) in r
      {
        NonZeroTotalHasData(rows, indicator, y);
      }
    }
    assert |r| > 0 ==> r[0] in r;
    r
  }

  /** Every year on the time-series chart is also a selectable year of the
      indicator. */
  lemma SeriesYearsAreValid(rows: seq<Row>, indicator: string)
    ensures forall p :: p in Series(rows, indicator) ==> p.year in ValidYears(rows, indicator)
  {
    forall p | p in Series(rows, indicator)
      ensures p.year in ValidYears(rows, indicator)
    {
      NonZeroTotalHasData(rows, indicator, p.year);
    }
  }

  /** The highlighted point as the chart code reads it: `iloc[-1]`, defined
      only on a non-empty series. On an ascending series it is the latest year. */
  function LastPoint(series: seq<Point>): (r: Point)
    requires |series| > 0
    ensures r in series
    ensures AscendingYears(series) ==> forall p :: p in series ==> p.year <= r.year
  {
    series[|series| - 1]
  }

  /** A one-row table whose indicator is zero has a valid year but an empty
      series, so `LastPoint` has nothing to read. */
  lemma ZeroIndicatorLeavesNoLastPoint()
    ensures var rows := [Row(2023, 1, map["total_desastres" := Some(0.0)])];
            ValidYears(rows, "total_desastres") == [2023] && Series(rows, "total_desastres") == []
  {
  }

  /** The highlighted point, absent when the series is empty: present exactly
      when there is a point, and then the latest one. */
  function Highlight(series: seq<Point>): (r: Option<Point>)
    ensures r.Some? <==> |series| > 0
    ensures r.Some? ==> r.value in series && r.value == series[|series| - 1]
    ensures r.Some? && AscendingYears(series) ==> forall p :: p in series ==> p.year <= r.value.year
  {
    if |series| == 0 then None else Some(LastPoint(series))
  }
}

=== FILE: wrappers.dfy ===
/** Failure-aware wrappers: a nullable cell (`Option`) and the outcome of a
    computation that can stop early (`Result`). */
module Wrappers {

  /** A cell that may be null (pandas NaN / None). */
  datatype Option<+T> = None | Some(value: T) {

    /** The wrapped value, or `default` when the cell is null. */
    function GetOr(default: T): T {
      match this
      case Some(v) => v
      case None => default
    }
  }

  /** Either a computed value or the reason the computation stopped. */
  datatype Result<+R, +E> = Success(value: R) | Failure(error: E)
}

=== FILE: years.dfy ===
/** The year domain offered for the selected indicator and the year selected
    first. */
module Years {
  import opened Frame

  /** The year preferred as the initial selection. */
  const PreferredYear: int := 2023

  /** Strictly ascending, hence also free of duplicates. */
  predicate Increasing(s: seq<int>) {
    forall i, j :: 0 <= i < j < |s| ==> s[i] < s[j]
  }

  /** Adds `y` to a strictly ascending sequence at its place, unless present. */
  function Insert(s: seq<int>, y: int): (r: seq<int>)
    requires Increasing(s)
    ensures Increasing(r)
    ensures forall x :: x in r <==> x in s || x == y
  {
    if |s| == 0 then [y]
    else if y < s[0] then [y] + s
    else if y == s[0] then s
    else
      var rest := Insert(s[1..], y);
      var r := [s[0]] + rest;
      assert Increasing(r) by {
        forall i, j | 0 <= i < j < |r|
          ensures r[i] < r[j]
        {
          assert r[j] == rest[j - 1] && rest[j - 1] in rest;
          if i > 0 {
            assert r[i] == rest[i - 1];
          }
        }
      }
      r
  }

  /** `sorted(set(xs))`: the distinct values of `xs` in ascending order. */
  function SortedDistinct(xs: seq<int>): (r: seq<int>)
    ensures Increasing(r)
    ensures forall x :: x in r <==> x in xs
  {
    if |xs| == 0 then [] else Insert(SortedDistinct(xs[1..]), xs[0])
  }

  /** The `ano` column of the rows whose `indicator` cell is not null. */
  function YearsWithValue(rows: seq<Row>, indicator: string): (r: seq<int>)
    ensures forall y :: y in r <==> YearHasData(rows, indicator, y)
  {
    if |rows| == 0 then []
    else
      var rest := YearsWithValue(rows[1..], indicator);
      assert forall row :: row in rows <==> row == rows[0] || row in rows[1..];
      if HasValue(rows[0], indicator) then [rows[0].ano] + rest else rest
  }

  /** The valid years for an indicator: ascending, distinct, and exactly the
      years in which some row has a non-null value of the indicator. */
  function ValidYears(rows: seq<Row>, indicator: string): (r: seq<int>)
    ensures Increasing(r)
    ensures forall y :: y in r <==> YearHasData(rows, indicator, y)
    ensures |r| == 0 <==> forall row :: row in rows ==> !HasValue(row, indicator)
  {
    var r := SortedDistinct(YearsWithValue(rows, indicator));
    assert |r| > 0 ==> r[0] in r;
    assert forall row :: row in rows && HasValue(row, indicator) ==> YearHasData(rows, indicator, row.ano);
    r
  }

  /** Two strictly ascending sequences with the same elements are equal: the
      valid-year list is the only ascending enumeration of its year set. */
  lemma {:induction false} IncreasingUnique(a: seq<int>, b: seq<int>)
    requires Increasing(a) && Increasing(b)
    requires forall x :: x in a <==> x in b
    ensures a == b
    decreases |a|
  {
    assert |a| > 0 ==> a[0] in a;
    assert |b| > 0 ==> b[0] in b;
    if |a| > 0 && |b| > 0 {
      assert b[0] in a;
      assert a[0] == b[0];
      forall x
        ensures x in a[1..] <==> x in b[1..]
      {
        if x in a[1..] {
          assert x in b && x != b[0];
        }
        if x in b[1..] {
          assert x in a && x != a[0];
        }
      }
      IncreasingUnique(a[1..], b[1..]);
    }
  }

  /** A strictly ascending sequence has as many elements as its set of values. */
  lemma {:induction false} IncreasingCardinality(s: seq<int>)
    requires Increasing(s)
    ensures |set x | x in s| == |s|
  {
    if |s| > 0 {
      IncreasingCardinality(s[1..]);
      assert (set x | x in s) == (set x | x in s[1..]) + {s[0]};
      assert s[0] !in s[1..];
    }
  }

  /** The valid-year list is the sorted, duplicate-free form of the year set:
      its length is the number of distinct years that have data. */
  lemma ValidYearsCount(rows: seq<Row>, indicator: string)
    ensures |ValidYears(rows, indicator)| == |set y | y in YearsWithValue(rows, indicator)|
  {
    var r := ValidYears(rows, indicator);
    IncreasingCardinality(r);
    assert (set y | y in r) == (set y | y in YearsWithValue(rows, indicator));
  }

  /** The initially selected year: the preferred year when it is valid,
      otherwise the last valid year. */
  function DefaultYear(years: seq<int>): (r: int)
    requires |years| > 0
    ensures r in years
    ensures r == PreferredYear <==> PreferredYear in years
    ensures PreferredYear !in years ==> r == years[|years| - 1]
  {
    if PreferredYear in years then PreferredYear else years[|years| - 1]
  }

  /** On an ascending year list, the fallback default year is the latest one. */
  lemma DefaultYearIsLatest(years: seq<int>)
    requires |years| > 0 && Increasing(years)
    requires PreferredYear !in years
    ensures forall y :: y in years ==> y <= DefaultYear(years)
  {
  }
}
